=== FILE: README.md ===
# Donation webhook relay, modelled in Dafny

This project models the core of a small donation-webhook relay (`server.js`).
Donation platforms post a payload for one of up to five configured Roblox
games. The relay picks the donor name, amount, message and e-mail out of the
payload. It extracts the donor's Roblox username from the message and builds a
normalised donation record to forward to the game's messaging topic.

Modules:

- `Wrappers` (`wrappers.dfy`): `Option` and `Result`.
- `JsValue` (`js_value.dfy`): JavaScript payload values, truthiness, `||`, and
  the "first truthy value, else default" selection.
- `Username` (`username.dfy`): `extractUsername`. It tries the three anchored
  regexes `^\[(\w+)\]`, `^@(\w+)` and `^(\w+):` in that order, with `\w` as
  ASCII `[A-Za-z0-9_]`. Each regex is given twice: as a matcher and as a
  predicate saying what a match means. Lemmas show the two agree.
- `Webhook` (`webhook.dfy`): the Saweria and SocialBuzz handlers up to the
  forwarding call: acceptance of the payload, field selection, flooring of
  the amount, the record, and the HTTP reply.
- `Games` (`games.dfy`): the game table built from the environment, its
  filtering by universe id, the lookup by id in the test route, and the
  start-up checks.

Inputs the relay takes from the outside world are parameters:

- the clock reading `Date.now()` is `nowMillis`;
- the process environment is a map;
- whether the network call `sendToRoblox` succeeded is a boolean.

Behaviour worth knowing, each stated by a lemma below:

- The three username forms exclude one another, so their order never changes
  the result.
- A truthy message that is not a string (a number, `true`) makes
  `extractUsername` throw. The handler then neither forwards nor replies itself.
- The reply to a delivered donation echoes the raw amount from the payload.
  The forwarded record carries the floored amount.
- SocialBuzz refuses only a missing body. A payload object without any of the
  expected keys is forwarded as an anonymous donation of zero.

## Model

| member | source | states |
|---|---|---|
| JsValue.Or | server.js:210 | JavaScript's logical-or of `a` and `b` is `a` when `a` is truthy, else `b`; it is truthy iff either operand is (truthiness, `Truthy`, treats `undefined`, `null`, `''`, `0` and `false` as the falsy values) |
| JsValue.FirstTruthy | server.js:210-212 | the result is the truthy value at the least such index, or the default when no value is truthy |
| JsValue.OrChainIsFirstTruthy | server.js:210-212 | a left-nested chain of JavaScript logical-ors ending in a default equals the first truthy operand before the default, else the default |
| Username.WordRun | server.js:75-82 | the greedy `\w+` run: every character before the returned length is a word character, and the next one is not (or the string ends) |
| Username.MatchBracketCorrect | server.js:75-76 | the bracket matcher returns `c` iff the message starts with `[`, then the nonempty word `c`, then `]` |
| Username.MatchAtCorrect | server.js:78-79 | the at matcher returns `c` iff the message starts with `@` and `c` is the maximal nonempty run of word characters after it |
| Username.MatchColonCorrect | server.js:81-82 | the colon matcher returns `c` iff the message starts with the nonempty word `c` directly followed by `:` |
| Username.PatternsExclusive | server.js:75-82 | no message matches two of the three patterns |
| Username.ExtractUsername | server.js:72-85 | a falsy message gives the donor name; a truthy non-string message throws; any other result is the donor name or a nonempty `[A-Za-z0-9_]` word at offset 0 or 1 of the message |
| Username.ExtractUsernamePriority | server.js:75-82 | a bracket form wins; failing that, an at form; failing both, a colon form; each yields its capture |
| Username.ExtractUsernameFallsBack | server.js:81-84 | the donor name is returned when no form matches; when the donor name is not itself a word, the reverse also holds |
| Username.BracketExample | server.js:75-76 | `"[Bob]: @Ann"` yields `Bob`: the bracket rule wins over the other two |
| Username.AtExample | server.js:78-79 | `"@sari gg"` yields `sari` |
| Username.ColonExample | server.js:81-82 | `"Rian: hi"` yields `Rian` |
| Username.SpaceBeforeColonExample | server.js:81-84 | `"Hi there: x"` falls through to the donor name |
| Username.SpaceInBracketsExample | server.js:75-84 | `"[bad name] x"` falls through to the donor name |
| Webhook.Field | server.js:157 | a key the payload carries reads as its value, and a key it lacks reads as `undefined` |
| Webhook.Pick | server.js:157-223 | the picked donor name is always truthy; amount, message and e-mail are truthy or their defaults `0`, `''`, `''` |
| Webhook.SaweriaPicks | server.js:157-170 | Saweria picks donator_name if truthy else 'Anonymous'; amount_raw else 0; message else ''; donator_email else '' |
| Webhook.SocialBuzzPicks | server.js:210-223 | SocialBuzz picks the first truthy of supporter_name, name, donator_name, else 'Anonymous'; of amount, donation_amount, amount_raw, else 0; of message, supporter_message, note, else ''; of supporter_email, email, else '' |
| Webhook.FloorAmount | server.js:166 | `Math.floor` of a number `x` is the integer `n` with `n <= x < n + 1`; booleans and `null` floor to 1/0; `undefined` gives `NaN` |
| Webhook.UnixSeconds | server.js:167 | the timestamp `t` is whole seconds with `1000 t <= now < 1000 t + 1000` |
| Webhook.Normalise | server.js:157-171 | an accepted payload is forwarded unless the picked message is truthy and not a string, in which case the handler throws; the record carries the platform's name and a truthy display name; its amount is the floor of the raw amount and never `NaN` unless the raw amount is a string (then it is kept unconverted as `Coerced`); its username is the display name or a word taken from the start of the message |
| Webhook.NormaliseRecord | server.js:214-224 | how the record is assembled, field by field: display name is the picked donor name, username is `extractUsername(message, displayName)`, amount is the floored picked amount, message and e-mail are the picked ones (the picks themselves are fixed by `SaweriaPicks` and `SocialBuzzPicks`) |
| Webhook.HandleSaweria | server.js:147-171 | the request is ignored iff the payload is missing or its `type` is not `'donation'`; it is never rejected; a donation payload is normalised into the record to forward (or throws), with source `Saweria` |
| Webhook.HandleSocialBuzz | server.js:200-224 | the request is rejected iff the payload is missing; it is never ignored; any present payload is normalised into the record to forward (or throws), with source `SocialBuzz` |
| Webhook.SocialBuzzExample | server.js:210-224 | an empty `supporter_name` falls through to `name`; `"[Andi_R] ..."` gives username `Andi_R`; amount 15000.75 becomes 15000 |
| Webhook.SaweriaDonationForwarded | server.js:157-171 | a Saweria donation event with name `Budi`, amount 20000 and message `@budi77 mantap` is forwarded with username `budi77`, display name `Budi`, amount 20000 and source `Saweria` |
| Webhook.SocialBuzzEmptyPayloadForwarded | server.js:202-224 | a SocialBuzz payload object without any of the keys read passes the missing-payload check and is forwarded as an `Anonymous` donation of 0 with empty message and e-mail |
| Webhook.SaweriaNumericMessageCrashes | server.js:157-161 | a numeric Saweria message makes the handler throw, so nothing is forwarded or replied |
| Webhook.Respond | server.js:149-246 | a thrown handler gives no reply; `success` holds iff the status is 200; an ignored event gets 200 and a missing payload 400; a forwarded record gets 200 iff delivery succeeded, else 500; a reply has `data` exactly when the record was delivered, and that data is the username, the raw unfloored amount and the source |
| Webhook.RespondIgnoresDeliveryUnlessForwarded | server.js:173-174 | the network result affects only the reply to a forwarded record |
| Webhook.SaweriaIgnoresNonDonation | server.js:149-155 | a missing or non-donation Saweria payload is acknowledged with 200 and `success: true` |
| Webhook.SocialBuzzRejectsMissingPayload | server.js:202-208 | a missing SocialBuzz payload is refused with 400 and `success: false` |
| Games.EnvOr | server.js:19 | an environment variable with a fallback is JavaScript's logical-or of the variable (or `undefined`) and the fallback: the variable when set and nonempty, else the fallback |
| Games.HasUniverse | server.js:47 | a game passes the filter iff its universe id is truthy as a JavaScript value (set and nonempty) |
| Games.Configured | server.js:47 | the filter keeps exactly the games with a truthy universe id and never grows the table |
| Games.ConfiguredAppend | server.js:47 | filtering distributes over concatenation, so the table keeps its order |
| Games.ConfiguredIdempotent | server.js:47 | filtering twice equals filtering once |
| Games.ConfiguredGames | server.js:16-47 | `GAMES` has at most five games; each has a universe id; these are exactly the declared slots that have one |
| Games.SingleSlotExample | server.js:16-47 | with only `GAME_2_UNIVERSE_ID` set, `GAMES` is the one default-named `game2`, and looking up `game1` lists `game2` as available |
| Games.FindGame | server.js:292 | no result iff no game has the id; a result is a table game with that id |
| Games.FindGameIsFirst | server.js:292 | the result is the first game carrying the id |
| Games.Ids | server.js:298 | the id list has one entry per game, in table order, each the id of that game |
| Games.TestLookup | server.js:290-300 | the route answers 404 iff the id is not in the table, and then lists every configured id |
| Games.Startup | server.js:49-58 | start-up fails for a missing or empty API key, checked first; it then fails iff no slot has a universe id; on success the table is exactly the filtered `GAMES` (1 to 5 games, all with universe ids) |

## Left out

- Forwarding to Roblox (`sendToRoblox`, lines 97-138) is an HTTPS POST. It is
  left out, and so are the URL it builds and the JSON encoding of the record.
  Its success or failure is the `delivered` parameter of `Webhook.Respond`.
- The reply fields `robloxResponse` and `details` are left out. They carry data
  returned by the network.
- `formatRupiah` (lines 88-94) is left out. It relies on `Intl.NumberFormat`
  and is used only for logging.
- Express setup, routing, the `/` and `/debug` routes, the 404 and error
  handlers, `app.listen`, and all console logging are left out (lines 1-11,
  255-287, 334-411).
- `process.exit` on a failed start-up is modelled as `Games.Startup` returning
  an error.
- The test route's payload (lines 302-331) is left out. It uses `parseInt` and
  sends to the network. Only its game lookup is modelled.
- Webhook.FloorAmount: string amounts are left out. `Math.floor` first
  converts a string to a number, and a non-numeric string such as `"abc"`
  gives `NaN`, which the record would then carry. The model does not include
  that conversion and keeps the string as `Coerced(raw)`.
- Objects and arrays as payload field values are left out. Their truthiness and
  number conversion go through `ToPrimitive`.
- Numbers are exact reals, not IEEE doubles. Rounding when the JSON payload is
  parsed (`0.99999999999999999` becomes `1`) is not modelled. Overflow to
  `Infinity` (`1e400`) is not modelled either; `Math.floor` would keep it.
  `NaN` is not a value of the model.
- After a handler throws, the rejected promise is left to the web framework,
  which is not part of this model. Express 5 passes it to the error handler
  (lines 385-391), which replies 500. Express 4 leaves it unhandled, and no
  reply is sent. `NoReply` in `Webhook.Respond` stands for the handler's own
  behaviour: it sends nothing.
- A JSON array as the whole body is modelled as a payload without fields.
- The repository's license-key verification and binding code is outside
  `server.js` and is not modelled.

=== FILE: games.dfy ===
/**
 The game table of the relay (server.js, `GAMES` and the test route's lookup):
 five game slots read from the environment, of which only those with a
 universe id are kept, and the lookup of a game by its id.
 */
module Games {
  import opened Wrappers
  import opened JsValue

  /** One configured game. `universeId` is `None` when its environment
      variable is unset. */
  datatype Game = Game(id: string, name: string, universeId: Option<string>, topic: string)

  /** The process environment, as the relay reads it at start-up. */
  type Env = map<string, string>

  /** An environment variable as a JavaScript value: a string, or `undefined`
      when unset. */
  function EnvValue(env: Env, key: string): Value
  {
    if key in env then Str(env[key]) else Absent
  }

  /** `process.env[key] || fallback`: unset and empty variables are falsy. */
  function EnvOr(env: Env, key: string, fallback: string): (r: string)
    ensures Str(r) == Or(EnvValue(env, key), Str(fallback))
    ensures key in env && env[key] != "" ==> r == env[key]
    ensures key !in env || env[key] == "" ==> r == fallback
  {
    if key in env && env[key] != "" then env[key] else fallback
  }

  /** `process.env[key]`, `undefined` when unset. */
  function EnvGet(env: Env, key: string): Option<string>
  {
    if key in env then Some(env[key]) else None
  }

  /** The table entry for slot `n` ("1" to "5"). */
  function Slot(env: Env, n: string): Game
  {
    Game("game" + n,
         EnvOr(env, "GAME_" + n + "_NAME", "Game " + n),
         EnvGet(env, "GAME_" + n + "_UNIVERSE_ID"),
         EnvOr(env, "GAME_" + n + "_TOPIC", "ArchieDonationIDR"))
  }

  /** The five slots in declaration order, before filtering. */
  function Slots(env: Env): seq<Game>
  {
    [Slot(env, "1"), Slot(env, "2"), Slot(env, "3"), Slot(env, "4"), Slot(env, "5")]
  }

  /** `game.universeId` is truthy: set and not empty. */
  predicate HasUniverse(g: Game)
    ensures HasUniverse(g) <==> Truthy(match g.universeId case Some(u) => Str(u) case None => Absent)
  {
    g.universeId.Some? && g.universeId.value != ""
  }

  /** `games.filter(game => game.universeId)`. */
  function Configured(games: seq<Game>): (r: seq<Game>)
    ensures |r| <= |games|
    ensures forall i :: 0 <= i < |r| ==> HasUniverse(r[i])
    ensures forall g :: g in r <==> g in games && HasUniverse(g)
    decreases |games|
  {
    if |games| == 0 then []
    else
      var rest := Configured(games[1..]);
      assert forall g :: g in games[1..] ==> g in games;
      assert forall g :: g in games ==> g == games[0] || g in games[1..];
      if HasUniverse(games[0]) then [games[0]] + rest else rest
  }

  /** Filtering keeps the order of the table: it distributes over
      concatenation. */
  lemma {:induction false} ConfiguredAppend(a: seq<Game>, b: seq<Game>)
    ensures Configured(a + b) == Configured(a) + Configured(b)
    decreases |a|
  {
    if |a| == 0 {
      assert a + b == b;
    } else {
      assert (a + b)[1..] == a[1..] + b;
      ConfiguredAppend(a[1..], b);
    }
  }

  /** Filtering a filtered table changes nothing. */
  lemma {:induction false} ConfiguredIdempotent(games: seq<Game>)
    ensures Configured(Configured(games)) == Configured(games)
    decreases |games|
  {
    if |games| > 0 {
      ConfiguredIdempotent(games[1..]);
      if HasUniverse(games[0]) {
        var rest := Configured(games[1..]);
        assert ([games[0]] + rest)[1..] == rest;
      }
    }
  }

  /** `GAMES`: the slots that have a universe id, in slot order. */
  function ConfiguredGames(env: Env): (r: seq<Game>)
    ensures |r| <= 5
    ensures forall i :: 0 <= i < |r| ==> HasUniverse(r[i])
    ensures forall g :: g in r <==> g in Slots(env) && HasUniverse(g)
  {
    Configured(Slots(env))
  }

  /** `games.find(g => g.id === id)`: the first game with that id. */
  function FindGame(games: seq<Game>, id: string): (r: Option<Game>)
    ensures r.None? <==> forall i :: 0 <= i < |games| ==> games[i].id != id
    ensures r.Some? ==> r.value in games && r.value.id == id
    decreases |games|
  {
    if |games| == 0 then None
    else if games[0].id == id then Some(games[0])
    else
      var r := FindGame(games[1..], id);
      assert forall i :: 1 <= i < |games| ==> games[i] == games[1..][i - 1];
      r
  }

  /** The game `FindGame` returns is the first one carrying that id. */
  lemma {:induction false} FindGameIsFirst(games: seq<Game>, id: string, k: nat)
    requires k < |games| && games[k].id == id
    requires forall j :: 0 <= j < k ==> games[j].id != id
    ensures FindGame(games, id) == Some(games[k])
    decreases k
  {
    if k > 0 {
      FindGameIsFirst(games[1..], id, k - 1);
    }
  }

  /** The ids of the table, in order (`GAMES.map(g => g.id)`). */
  function Ids(games: seq<Game>): (r: seq<string>)
    ensures |r| == |games|
    ensures forall i :: 0 <= i < |games| ==> r[i] == games[i].id
  {
    seq(|games|, i requires 0 <= i < |games| => games[i].id)
  }

  /** The game lookup of the `/:gameId/test` route: the game, or a 404 that
      lists the ids that do exist. */
  datatype Lookup = Found(game: Game) | NotFound(availableGames: seq<string>)

  function TestLookup(games: seq<Game>, gameId: string): (r: Lookup)
    ensures r.NotFound? <==> gameId !in Ids(games)
    ensures r.NotFound? ==> r.availableGames == Ids(games)
    ensures r.Found? ==> r.game in games && r.game.id == gameId
  {
    match FindGame(games, gameId)
    case None => NotFound(Ids(games))
    case Some(g) => Found(g)
  }

  /** Why the relay refuses to start. */
  datatype StartupError = MissingApiKey | NoGameConfigured

  /** The start-up checks: the API key must be set (and not empty) and at least
      one game must have a universe id; the key is checked first. */
  function Startup(env: Env): (r: Result<seq<Game>, StartupError>)
    ensures r == Err(MissingApiKey) <==> EnvOr(env, "ROBLOX_API_KEY", "") == ""
    ensures r == Err(NoGameConfigured) <==>
              EnvOr(env, "ROBLOX_API_KEY", "") != "" &&
              forall i :: 0 <= i < |Slots(env)| ==> !HasUniverse(Slots(env)[i])
    ensures r.Ok? ==> 1 <= |r.value| <= 5 && forall i :: 0 <= i < |r.value| ==> HasUniverse(r.value[i])
    ensures r.Ok? ==> r.value == ConfiguredGames(env)
  {
    var games := ConfiguredGames(env);
    if EnvOr(env, "ROBLOX_API_KEY", "") == "" then Err(MissingApiKey)
    else if |games| == 0 then Err(NoGameConfigured)
    else
      assert games[0] in Slots(env);
      Ok(games)
  }

  /** The five slots when only the second slot's universe id is set. */
  lemma SingleSlotSlots()
    ensures var s := Slots(map["GAME_2_UNIVERSE_ID" := "123"]);
            && !HasUniverse(s[0]) && !HasUniverse(s[2]) && !HasUniverse(s[3]) && !HasUniverse(s[4])
            && s[1] == Game("game2", "Game 2", Some("123"), "ArchieDonationIDR")
  {
    var key := "GAME_2_UNIVERSE_ID";
    assert key[5] == '2';
    assert ("GAME_" + "1" + "_UNIVERSE_ID")[5] == '1';
    assert ("GAME_" + "3" + "_UNIVERSE_ID")[5] == '3';
    assert ("GAME_" + "4" + "_UNIVERSE_ID")[5] == '4';
    assert ("GAME_" + "5" + "_UNIVERSE_ID")[5] == '5';
    assert "GAME_" + "2" + "_UNIVERSE_ID" == key;
    assert |"GAME_" + "2" + "_NAME"| != |key|;
    assert |"GAME_" + "2" + "_TOPIC"| != |key|;
  }

  /** With only the second slot's universe id set, the table holds exactly
      that game, under its default name and topic. */
  lemma SingleSlotExample()
    ensures ConfiguredGames(map["GAME_2_UNIVERSE_ID" := "123"]) ==
            [Game("game2", "Game 2", Some("123"), "ArchieDonationIDR")]
    ensures TestLookup(ConfiguredGames(map["GAME_2_UNIVERSE_ID" := "123"]), "game1") ==
            NotFound(["game2"])
  {
    var s := Slots(map["GAME_2_UNIVERSE_ID" := "123"]);
    SingleSlotSlots();
    assert HasUniverse(s[1]);
    assert s[4..] == [s[4]] && s[4..][1..] == [];
    assert s[3..][1..] == s[4..];
    assert s[2..][1..] == s[3..];
    assert s[1..][1..] == s[2..];
    assert Configured(s[4..]) == [];
    assert Configured(s[3..]) == [];
    assert Configured(s[2..]) == [];
    assert Configured(s[1..]) == [s[1]];
  }
}

=== FILE: js_value.dfy ===
/**
 The slice of JavaScript's value semantics the relay depends on: the values a
 parsed JSON payload field can hold, truthiness, the `||` operator, and the
 "first truthy value, else default" chains the webhook handlers are built from.
 */
module JsValue {

  /** A payload field as JavaScript sees it. `Absent` is `undefined` (a key the
      payload does not carry). Numbers are exact reals rather than IEEE doubles:
      rounding when the payload is parsed, and overflow to `Infinity`, are not
      modelled. */
  datatype Value = Absent | Null | Str(s: string) | Num(n: real) | Bool(b: bool)

  /** JavaScript truthiness: `undefined`, `null`, `""`, `0` and `false` are falsy. */
  predicate Truthy(v: Value)
  {
    match v
    case Absent => false
    case Null => false
    case Str(s) => s != ""
    case Num(n) => n != 0.0
    case Bool(b) => b
  }

  /** The JavaScript expression `a || b`: the left operand when it is truthy,
      otherwise the right one (which is returned even when falsy). */
  function Or(a: Value, b: Value): (r: Value)
    ensures Truthy(a) ==> r == a
    ensures !Truthy(a) ==> r == b
    ensures Truthy(r) <==> Truthy(a) || Truthy(b)
  {
    if Truthy(a) then a else b
  }

  /** The first truthy value of `vs`, or `default` when none is truthy. */
  function FirstTruthy(vs: seq<Value>, default: Value): (r: Value)
    ensures (forall i :: 0 <= i < |vs| ==> !Truthy(vs[i])) ==> r == default
    ensures (exists i :: 0 <= i < |vs| && Truthy(vs[i])) ==>
              exists k :: 0 <= k < |vs| && Truthy(vs[k]) && r == vs[k] &&
                (forall j :: 0 <= j < k ==> !Truthy(vs[j]))
    decreases |vs|
  {
    if |vs| == 0 then default
    else if Truthy(vs[0]) then vs[0]
    else
      var r := FirstTruthy(vs[1..], default);
      assert forall i :: 1 <= i < |vs| ==> vs[i] == vs[1..][i - 1];
      r
  }

  /** A left-nested chain `((acc || vs[0]) || vs[1]) || ...`, evaluated the
      way JavaScript evaluates `x0 || x1 || ... || xn`. */
  function OrChain(acc: Value, vs: seq<Value>): Value
    decreases |vs|
  {
    if |vs| == 0 then acc else OrChain(Or(acc, vs[0]), vs[1..])
  }

  /** A JavaScript `||` chain whose last operand is a default value picks
      exactly the first truthy operand before it, or that default. */
  lemma {:induction false} OrChainIsFirstTruthy(vs: seq<Value>, default: Value)
    requires |vs| >= 1
    ensures OrChain(vs[0], vs[1..] + [default]) == FirstTruthy(vs, default)
    decreases |vs|
  {
    if |vs| == 1 {
      assert vs[1..] + [default] == [default];
    } else if Truthy(vs[0]) {
      OrChainKeepsTruthy(vs[0], vs[1..] + [default]);
    } else {
      var rest := vs[1..];
      assert vs[1..] + [default] == [rest[0]] + (rest[1..] + [default]);
      OrChainIsFirstTruthy(rest, default);
    }
  }

  /** Once the accumulator of a `||` chain is truthy it is the chain's value. */
  lemma {:induction false} OrChainKeepsTruthy(acc: Value, vs: seq<Value>)
    requires Truthy(acc)
    ensures OrChain(acc, vs) == acc
    decreases |vs|
  {
    if |vs| > 0 {
      OrChainKeepsTruthy(acc, vs[1..]);
    }
  }
}

=== FILE: username.dfy ===
/**
 The username extractor of the relay (server.js, `extractUsername`). A donor
 writes their Roblox name at the start of the donation message in one of three
 forms, tried in this order:

   `[name] ...`   bracket form, regex `^\[(\w+)\]`
   `@name ...`    at form,      regex `^@(\w+)`
   `name: ...`    colon form,   regex `^(\w+):`

 and when none applies the donor's display name is used. Without the `u` flag
 a JavaScript `\w` is exactly the ASCII class `[A-Za-z0-9_]`.
 */
module Username {
  import opened Wrappers
  import opened JsValue

  /** The regex class `\w` (ASCII letters, digits and underscore). */
  predicate IsWordChar(ch: char)
  {
    ('a' <= ch <= 'z') || ('A' <= ch <= 'Z') || ('0' <= ch <= '9') || ch == '_'
  }

  /** A nonempty string matched by `\w+`. */
  predicate IsWord(w: string)
  {
    |w| >= 1 && forall i :: 0 <= i < |w| ==> IsWordChar(w[i])
  }

  /** Length of the longest prefix of `s` made of word characters: how far a
      greedy `\w+` (or `\w*`) advances from the start of `s`. */
  function WordRun(s: string): (n: nat)
    ensures n <= |s|
    ensures forall i :: 0 <= i < n ==> IsWordChar(s[i])
    ensures n == |s| || !IsWordChar(s[n])
    decreases |s|
  {
    if |s| > 0 && IsWordChar(s[0]) then 1 + WordRun(s[1..]) else 0
  }

  /** The greedy run is the only word-character prefix that is followed by a
      non-word character or by the end of the string. */
  lemma WordRunUnique(s: string, k: nat)
    requires k <= |s|
    requires forall i :: 0 <= i < k ==> IsWordChar(s[i])
    requires k == |s| || !IsWordChar(s[k])
    ensures WordRun(s) == k
  {
  }

  // ---------------------------------------------------------------------
  // The three patterns, stated as what a match means (reference definitions)

  /** `^\[(\w+)\]` matches `m` with capture `c`. */
  predicate BracketForm(m: string, c: string)
  {
    IsWord(c) && "[" + c + "]" <= m
  }

  /** `^@(\w+)` matches `m` with capture `c`: the quantifier is greedy, so the
      capture stops only where the word characters stop. */
  predicate AtForm(m: string, c: string)
  {
    IsWord(c) && "@" + c <= m && (|m| == |c| + 1 || !IsWordChar(m[|c| + 1]))
  }

  /** `^(\w+):` matches `m` with capture `c`. */
  predicate ColonForm(m: string, c: string)
  {
    IsWord(c) && c + ":" <= m
  }

  // ---------------------------------------------------------------------
  // The three patterns, as a matcher computes them

  /** `m.match(/^\[(\w+)\]/)`, returning the capture group. */
  function MatchBracket(m: string): Option<string>
  {
    if |m| >= 1 && m[0] == '[' then
      var n := WordRun(m[1..]);
      if n >= 1 && n + 1 < |m| && m[n + 1] == ']' then Some(m[1..n + 1]) else None
    else None
  }

  /** `m.match(/^@(\w+)/)`, returning the capture group. */
  function MatchAt(m: string): Option<string>
  {
    if |m| >= 1 && m[0] == '@' then
      var n := WordRun(m[1..]);
      if n >= 1 then Some(m[1..n + 1]) else None
    else None
  }

  /** `m.match(/^(\w+):/)`, returning the capture group. */
  function MatchColon(m: string): Option<string>
  {
    var n := WordRun(m);
    if n >= 1 && n < |m| && m[n] == ':' then Some(m[..n]) else None
  }

  /** The bracket matcher returns `c` exactly when `^\[(\w+)\]` matches with
      capture `c`. */
  lemma MatchBracketCorrect(m: string, c: string)
    ensures MatchBracket(m) == Some(c) <==> BracketForm(m, c)
  {
    if BracketForm(m, c) {
      assert m[0] == '[';
      var s := m[1..];
      assert forall i :: 0 <= i < |c| ==> s[i] == c[i];
      assert s[|c|] == ']';
      WordRunUnique(s, |c|);
      assert m[1..|c| + 1] == c;
    }
    if MatchBracket(m) == Some(c) {
      var s := m[1..];
      assert c == s[..|c|];
      assert IsWord(c);
      assert "[" + c + "]" == m[..|c| + 2];
    }
  }

  /** The at matcher returns `c` exactly when `^@(\w+)` matches with capture `c`. */
  lemma MatchAtCorrect(m: string, c: string)
    ensures MatchAt(m) == Some(c) <==> AtForm(m, c)
  {
    if AtForm(m, c) {
      assert m[0] == '@';
      var s := m[1..];
      assert forall i :: 0 <= i < |c| ==> s[i] == c[i];
      WordRunUnique(s, |c|);
      assert m[1..|c| + 1] == c;
    }
    if MatchAt(m) == Some(c) {
      var s := m[1..];
      assert "@" + c == m[..|c| + 1];
      assert |m| == |c| + 1 || m[|c| + 1] == s[|c|];
    }
  }

  /** The colon matcher returns `c` exactly when `^(\w+):` matches with
      capture `c`. */
  lemma MatchColonCorrect(m: string, c: string)
    ensures MatchColon(m) == Some(c) <==> ColonForm(m, c)
  {
    if ColonForm(m, c) {
      assert forall i :: 0 <= i < |c| ==> m[i] == c[i];
      assert m[|c|] == ':';
      WordRunUnique(m, |c|);
      assert m[..|c|] == c;
    }
    if MatchColon(m) == Some(c) {
      assert c + ":" == m[..|c| + 1];
    }
  }

  /** At most one of the three patterns matches any message: a bracket match
      starts with `[`, an at match with `@`, and a colon match with a word
      character. */
  lemma PatternsExclusive(m: string)
    ensures !(MatchBracket(m).Some? && MatchAt(m).Some?)
    ensures !(MatchBracket(m).Some? && MatchColon(m).Some?)
    ensures !(MatchAt(m).Some? && MatchColon(m).Some?)
  {
  }

  /** Raised when the message is a truthy value that is not a string:
      JavaScript then has no `match` method to call and throws. */
  datatype TypeError = MatchIsNotAFunction

  /** `extractUsername(message, donatorName)`. A falsy message yields the donor
      name; a string message is tried against the bracket, at and colon forms in
      that order; a truthy non-string message throws. */
  function ExtractUsername(message: Value, donor: Value): (r: Result<Value, TypeError>)
    ensures !Truthy(message) ==> r == Ok(donor)
    ensures Truthy(message) && !message.Str? ==> r == Err(MatchIsNotAFunction)
    ensures message.Str? ==> r.Ok?
    ensures r.Ok? && r.value != donor ==>
              r.value.Str? && IsWord(r.value.s) && message.Str? &&
              (r.value.s <= message.s || (|message.s| >= 1 && r.value.s <= message.s[1..]))
  {
    if !Truthy(message) then Ok(donor)
    else if !message.Str? then Err(MatchIsNotAFunction)
    else
      var m := message.s;
      if MatchBracket(m).Some? then Ok(Str(MatchBracket(m).value))
      else if MatchAt(m).Some? then Ok(Str(MatchAt(m).value))
      else if MatchColon(m).Some? then Ok(Str(MatchColon(m).value))
      else Ok(donor)
  }

  /** The order in which the three forms are tried, stated against what each
      form means: bracket first, then at, then colon, else the donor name. */
  lemma ExtractUsernamePriority(m: string, donor: Value, c: string)
    requires m != ""
    ensures BracketForm(m, c) ==> ExtractUsername(Str(m), donor) == Ok(Str(c))
    ensures (forall b :: !BracketForm(m, b)) && AtForm(m, c) ==>
              ExtractUsername(Str(m), donor) == Ok(Str(c))
    ensures (forall b :: !BracketForm(m, b)) && (forall a :: !AtForm(m, a)) && ColonForm(m, c) ==>
              ExtractUsername(Str(m), donor) == Ok(Str(c))
  {
    MatchBracketCorrect(m, c);
    MatchAtCorrect(m, c);
    MatchColonCorrect(m, c);
    if MatchBracket(m).Some? {
      MatchBracketCorrect(m, MatchBracket(m).value);
    }
    if MatchAt(m).Some? {
      MatchAtCorrect(m, MatchAt(m).value);
    }
  }

  /** The donor name is used for a nonempty string message exactly when none of
      the three forms matches it. */
  lemma ExtractUsernameFallsBack(m: string, donor: Value)
    requires m != ""
    ensures (forall c :: !BracketForm(m, c) && !AtForm(m, c) && !ColonForm(m, c)) ==>
              ExtractUsername(Str(m), donor) == Ok(donor)
    ensures ExtractUsername(Str(m), donor) == Ok(donor) && !(donor.Str? && IsWord(donor.s)) ==>
              forall c :: !BracketForm(m, c) && !AtForm(m, c) && !ColonForm(m, c)
  {
    if MatchBracket(m).Some? {
      MatchBracketCorrect(m, MatchBracket(m).value);
    } else if MatchAt(m).Some? {
      MatchAtCorrect(m, MatchAt(m).value);
    } else if MatchColon(m).Some? {
      MatchColonCorrect(m, MatchColon(m).value);
    }
    forall c | ExtractUsername(Str(m), donor) == Ok(donor) && !(donor.Str? && IsWord(donor.s))
      ensures !BracketForm(m, c) && !AtForm(m, c) && !ColonForm(m, c)
    {
      MatchBracketCorrect(m, c);
      MatchAtCorrect(m, c);
      MatchColonCorrect(m, c);
    }
  }

  /** A bracketed name wins, even when an at or colon form follows it. */
  lemma BracketExample()
    ensures ExtractUsername(Str("[Bob]: @Ann"), Str("Donor")) == Ok(Str("Bob"))
  {
    var m := "[Bob]: @Ann";
    assert BracketForm(m, "Bob") by {
      assert "[" + "Bob" + "]" == m[..5];
    }
    ExtractUsernamePriority(m, Str("Donor"), "Bob");
  }

  /** An at form ends where the word characters end. */
  lemma AtExample()
    ensures ExtractUsername(Str("@sari gg"), Str("Donor")) == Ok(Str("sari"))
  {
    var m := "@sari gg";
    assert AtForm(m, "sari") by {
      assert "@" + "sari" == m[..5];
    }
    assert MatchBracket(m).None?;
    MatchAtCorrect(m, "sari");
  }

  /** A colon right after the leading word characters gives the colon form. */
  lemma ColonExample()
    ensures ExtractUsername(Str("Rian: hi"), Str("Donor")) == Ok(Str("Rian"))
  {
    var m := "Rian: hi";
    assert ColonForm(m, "Rian") by {
      assert "Rian" + ":" == m[..5];
    }
    MatchColonCorrect(m, "Rian");
  }

  /** A space before the colon defeats the colon form, so the donor name is used. */
  lemma SpaceBeforeColonExample()
    ensures ExtractUsername(Str("Hi there: x"), Str("Donor")) == Ok(Str("Donor"))
  {
  }

  /** A space inside the brackets defeats every form, so the donor name is used. */
  lemma SpaceInBracketsExample()
    ensures ExtractUsername(Str("[bad name] x"), Str("Donor")) == Ok(Str("Donor"))
  {
    var m := "[bad name] x";
    var s := m[1..];
    assert WordRun(s[3..]) == 0;
    assert WordRun(s) == 3;
    assert WordRun(m) == 0;
  }
}

=== FILE: webhook.dfy ===
/**
 The two donation webhooks of the relay (server.js, `createWebhookEndpoints`):
 how a Saweria or SocialBuzz payload becomes the normalised donation record
 that is forwarded to the game, and which reply the caller receives.
 */
module Webhook {
  import opened Wrappers
  import opened JsValue
  import opened Username

  /** `req.body`: `NoBody` when it is missing or falsy, otherwise the fields of
      the parsed JSON object (a JSON array carries none of the keys read here
      and is represented by an empty field map). */
  datatype Body = NoBody | Payload(fields: map<string, Value>)

  /** `payload[key]`: `undefined` when the payload lacks the key. */
  function Field(fields: map<string, Value>, key: string): (v: Value)
    ensures key !in fields ==> v == Absent
    ensures key in fields ==> v == fields[key]
  {
    if key in fields then fields[key] else Absent
  }

  /** The platform a webhook serves; its name is the record's `source`. */
  datatype Platform = Saweria | SocialBuzz
  {
    function Name(): string
    {
      match this
      case Saweria => "Saweria"
      case SocialBuzz => "SocialBuzz"
    }
  }

  /** The payload keys read for each record field, in priority order. */
  function DonorKeys(p: Platform): seq<string>
  {
    match p
    case Saweria => ["donator_name"]
    case SocialBuzz => ["supporter_name", "name", "donator_name"]
  }

  function AmountKeys(p: Platform): seq<string>
  {
    match p
    case Saweria => ["amount_raw"]
    case SocialBuzz => ["amount", "donation_amount", "amount_raw"]
  }

  function MessageKeys(p: Platform): seq<string>
  {
    match p
    case Saweria => ["message"]
    case SocialBuzz => ["message", "supporter_message", "note"]
  }

  function EmailKeys(p: Platform): seq<string>
  {
    match p
    case Saweria => ["donator_email"]
    case SocialBuzz => ["supporter_email", "email"]
  }

  /** Defaults used when no key of a chain holds a truthy value. */
  const AnonymousDonor := Str("Anonymous")
  const ZeroAmount := Num(0.0)
  const EmptyText := Str("")

  /** The first truthy value among `fields[keys[0]]`, `fields[keys[1]]`, ...,
      else `default`. */
  function Select(fields: map<string, Value>, keys: seq<string>, default: Value): Value
  {
    FirstTruthy(seq(|keys|, i requires 0 <= i < |keys| => Field(fields, keys[i])), default)
  }

  /** The four values a handler picks out of the payload before building the
      record. */
  datatype Picked = Picked(donor: Value, amountRaw: Value, message: Value, email: Value)

  function Pick(p: Platform, fields: map<string, Value>): (k: Picked)
    ensures Truthy(k.donor)
    ensures Truthy(k.amountRaw) || k.amountRaw == ZeroAmount
    ensures Truthy(k.message) || k.message == EmptyText
    ensures Truthy(k.email) || k.email == EmptyText
  {
    Picked(Select(fields, DonorKeys(p), AnonymousDonor),
           Select(fields, AmountKeys(p), ZeroAmount),
           Select(fields, MessageKeys(p), EmptyText),
           Select(fields, EmailKeys(p), EmptyText))
  }

  /** The result of `Math.floor` on a payload value. Numbers, booleans and
      `null` floor to an integer and `undefined` to `NaN`; a string is first
      converted by JavaScript's string-to-number rules (a non-numeric string
      gives `NaN`), which are not part of this model, so the string is kept as
      it was. */
  datatype Amount = Whole(units: int) | NotANumber | Coerced(raw: string)

  function FloorAmount(v: Value): (a: Amount)
    ensures v.Num? ==> a.Whole? && a.units as real <= v.n < a.units as real + 1.0
    ensures v.Bool? ==> a == Whole(if v.b then 1 else 0)
    ensures v.Null? ==> a == Whole(0)
    ensures v.Absent? <==> a.NotANumber?
    ensures v.Str? <==> a.Coerced?
  {
    match v
    case Num(x) => Whole(x.Floor)
    case Bool(b) => Whole(if b then 1 else 0)
    case Null => Whole(0)
    case Absent => NotANumber
    case Str(s) => Coerced(s)
  }

  /** The record sent on to the game (`donationData`). */
  datatype Donation = Donation(
    username: Value,
    displayName: Value,
    amount: Amount,
    timestamp: int,
    source: string,
    message: Value,
    email: Value)

  /** What a webhook does with one request before anything is sent. */
  datatype Outcome =
    | Ignored                                   // Saweria: not a donation event
    | Rejected                                  // SocialBuzz: no payload
    | Crashed(error: TypeError)                 // extractUsername threw
    | Forward(donation: Donation, amountRaw: Value)  // hand the record to the game

  /** `Math.floor(Date.now() / 1000)` for a clock reading in milliseconds; for
      a positive divisor Dafny's `/` already rounds towards minus infinity. */
  function UnixSeconds(nowMillis: int): (t: int)
    ensures t * 1000 <= nowMillis < t * 1000 + 1000
  {
    nowMillis / 1000
  }

  /** Build the forwarded record from the payload fields: the steps both
      handlers share once the payload has been accepted. */
  function Normalise(p: Platform, fields: map<string, Value>, nowMillis: int): (o: Outcome)
    ensures o.Forward? || o.Crashed?
    ensures o.Crashed? <==> Truthy(Pick(p, fields).message) && !Pick(p, fields).message.Str?
    ensures o.Forward? ==> o.donation.source == p.Name()
    ensures o.Forward? ==> o.donation.message.Str?
    ensures o.Forward? ==> Truthy(o.donation.displayName)
    ensures o.Forward? ==> o.donation.amount == FloorAmount(o.amountRaw) && !o.donation.amount.NotANumber?
    ensures o.Forward? ==>
              o.donation.timestamp * 1000 <= nowMillis < o.donation.timestamp * 1000 + 1000
    ensures o.Forward? ==>
              var d := o.donation;
              d.username == d.displayName ||
              (d.username.Str? && IsWord(d.username.s) &&
               (d.username.s <= d.message.s ||
                (|d.message.s| >= 1 && d.username.s <= d.message.s[1..])))
  {
    var k := Pick(p, fields);
    match ExtractUsername(k.message, k.donor)
    case Err(e) => Crashed(e)
    case Ok(name) =>
      Forward(Donation(name, k.donor, FloorAmount(k.amountRaw), UnixSeconds(nowMillis),
                       p.Name(), k.message, k.email),
              k.amountRaw)
  }

  /** The `/<game>/saweria-webhook` handler up to the forwarding call. */
  function HandleSaweria(body: Body, nowMillis: int): (o: Outcome)
    ensures o != Rejected
    ensures o == Ignored <==> body.NoBody? || Field(body.fields, "type") != Str("donation")
    ensures o.Forward? ==> o.donation.source == "Saweria"
    ensures body.Payload? && Field(body.fields, "type") == Str("donation") ==>
              o == Normalise(Saweria, body.fields, nowMillis)
  {
    match body
    case NoBody => Ignored
    case Payload(fields) =>
      if Field(fields, "type") != Str("donation") then Ignored
      else Normalise(Saweria, fields, nowMillis)
  }

  /** The `/<game>/socialbuzz-webhook` handler up to the forwarding call. */
  function HandleSocialBuzz(body: Body, nowMillis: int): (o: Outcome)
    ensures o != Ignored
    ensures o == Rejected <==> body.NoBody?
    ensures o.Forward? ==> o.donation.source == "SocialBuzz"
    ensures body.Payload? ==> o == Normalise(SocialBuzz, body.fields, nowMillis)
  {
    match body
    case NoBody => Rejected
    case Payload(fields) => Normalise(SocialBuzz, fields, nowMillis)
  }

  /** The record a forwarded donation carries, field by field: the picked
      donor name is the display name, the username is extracted from the
      picked message with that name as fallback, and the amount is floored. */
  lemma NormaliseRecord(p: Platform, fields: map<string, Value>, nowMillis: int)
    requires Normalise(p, fields, nowMillis).Forward?
    ensures var k := Pick(p, fields);
            var o := Normalise(p, fields, nowMillis);
            && o.donation.displayName == k.donor
            && ExtractUsername(k.message, k.donor) == Ok(o.donation.username)
            && o.donation.amount == FloorAmount(k.amountRaw)
            && o.amountRaw == k.amountRaw
            && o.donation.message == k.message
            && o.donation.email == k.email
  {
  }

  /** Saweria's choices are the JavaScript expressions of the handler:
      `payload.donator_name || 'Anonymous'` and so on. */
  lemma SaweriaPicks(fields: map<string, Value>)
    ensures Pick(Saweria, fields) == Picked(
              Or(Field(fields, "donator_name"), AnonymousDonor),
              Or(Field(fields, "amount_raw"), ZeroAmount),
              Or(Field(fields, "message"), EmptyText),
              Or(Field(fields, "donator_email"), EmptyText))
  {
  }

  /** A three-key `||` chain with a default picks what `Select` picks. */
  lemma {:induction false} SelectIsOrChain3(fields: map<string, Value>, a: string, b: string, c: string, default: Value)
    ensures Select(fields, [a, b, c], default) ==
            Or(Or(Or(Field(fields, a), Field(fields, b)), Field(fields, c)), default)
  {
    var vs := [Field(fields, a), Field(fields, b), Field(fields, c)];
    assert seq(3, i requires 0 <= i < 3 => Field(fields, [a, b, c][i])) == vs;
    OrChainIsFirstTruthy(vs, default);
    assert vs[1..] + [default] == [vs[1], vs[2], default];
  }

  /** A two-key `||` chain with a default picks what `Select` picks. */
  lemma {:induction false} SelectIsOrChain2(fields: map<string, Value>, a: string, b: string, default: Value)
    ensures Select(fields, [a, b], default) ==
            Or(Or(Field(fields, a), Field(fields, b)), default)
  {
    var vs := [Field(fields, a), Field(fields, b)];
    assert seq(2, i requires 0 <= i < 2 => Field(fields, [a, b][i])) == vs;
    OrChainIsFirstTruthy(vs, default);
    assert vs[1..] + [default] == [vs[1], default];
  }

  /** SocialBuzz's choices are the JavaScript `||` chains of the handler:
      `supporter_name || name || donator_name || 'Anonymous'`,
      `amount || donation_amount || amount_raw || 0`,
      `message || supporter_message || note || ''` and
      `supporter_email || email || ''`. */
  lemma SocialBuzzPicks(fields: map<string, Value>)
    ensures Pick(SocialBuzz, fields) == Picked(
              Or(Or(Or(Field(fields, "supporter_name"), Field(fields, "name")),
                    Field(fields, "donator_name")), AnonymousDonor),
              Or(Or(Or(Field(fields, "amount"), Field(fields, "donation_amount")),
                    Field(fields, "amount_raw")), ZeroAmount),
              Or(Or(Or(Field(fields, "message"), Field(fields, "supporter_message")),
                    Field(fields, "note")), EmptyText),
              Or(Or(Field(fields, "supporter_email"), Field(fields, "email")), EmptyText))
  {
    SelectIsOrChain3(fields, "supporter_name", "name", "donator_name", AnonymousDonor);
    SelectIsOrChain3(fields, "amount", "donation_amount", "amount_raw", ZeroAmount);
    SelectIsOrChain3(fields, "message", "supporter_message", "note", EmptyText);
    SelectIsOrChain2(fields, "supporter_email", "email", EmptyText);
  }

  /** The payload of `SocialBuzzExample`. */
  function ExamplePayload(): map<string, Value>
  {
    map["supporter_name" := Str(""), "name" := Str("Andi"),
        "amount" := Num(15000.75), "message" := Str("[Andi_R] semangat")]
  }

  /** What SocialBuzz picks out of the example payload. */
  lemma ExamplePick()
    ensures Pick(SocialBuzz, ExamplePayload()) ==
            Picked(Str("Andi"), Num(15000.75), Str("[Andi_R] semangat"), Str(""))
  {
    var fields := ExamplePayload();
    SocialBuzzPicks(fields);
    assert |"donator_name"| == 12 && |"supporter_email"| == 15 && |"email"| == 5;
    assert |"supporter_message"| == 17 && |"note"| == 4;
  }

  /** A SocialBuzz payload whose first name key is empty: the display name
      falls through to `name`, the bracketed username is taken from the
      message, and the fractional amount is floored. */
  lemma SocialBuzzExample(nowMillis: int)
    ensures HandleSocialBuzz(Payload(ExamplePayload()), nowMillis) == Forward(
              Donation(Str("Andi_R"), Str("Andi"), Whole(15000), nowMillis / 1000,
                       "SocialBuzz", Str("[Andi_R] semangat"), Str("")),
              Num(15000.75))
  {
    ExamplePick();
    var m := "[Andi_R] semangat";
    assert BracketForm(m, "Andi_R") by {
      assert "[" + "Andi_R" + "]" == m[..8];
    }
    ExtractUsernamePriority(m, Str("Andi"), "Andi_R");
  }

  /** The payload of `SaweriaDonationForwarded`. */
  function SaweriaPayload(): map<string, Value>
  {
    map["type" := Str("donation"), "donator_name" := Str("Budi"),
        "amount_raw" := Num(20000.0), "message" := Str("@budi77 mantap")]
  }

  /** What Saweria picks out of the example payload. */
  lemma SaweriaPayloadPick()
    ensures Field(SaweriaPayload(), "type") == Str("donation")
    ensures Pick(Saweria, SaweriaPayload()) ==
            Picked(Str("Budi"), Num(20000.0), Str("@budi77 mantap"), Str(""))
  {
    SaweriaPicks(SaweriaPayload());
    assert |"donator_email"| == 13;
  }

  /** The username of the example message, by the `@` form. */
  lemma SaweriaPayloadUsername()
    ensures ExtractUsername(Str("@budi77 mantap"), Str("Budi")) == Ok(Str("budi77"))
  {
    var m := "@budi77 mantap";
    assert AtForm(m, "budi77") by {
      assert "@" + "budi77" == m[..7];
    }
    assert MatchBracket(m).None?;
    MatchAtCorrect(m, "budi77");
  }

  /** A Saweria donation event is forwarded: the donor's name is shown, the
      username comes from the `@` form of the message, and the amount is the
      raw amount floored. */
  lemma SaweriaDonationForwarded(nowMillis: int)
    ensures HandleSaweria(Payload(SaweriaPayload()), nowMillis) ==
            Forward(Donation(Str("budi77"), Str("Budi"), Whole(20000), nowMillis / 1000,
                             "Saweria", Str("@budi77 mantap"), Str("")),
                    Num(20000.0))
  {
    SaweriaPayloadPick();
    SaweriaPayloadUsername();
    assert FloorAmount(Num(20000.0)) == Whole(20000);
  }

  /** A SocialBuzz payload with none of the keys read is not refused: it is
      forwarded as an anonymous donation of zero with an empty message. */
  lemma SocialBuzzEmptyPayloadForwarded(nowMillis: int)
    ensures HandleSocialBuzz(Payload(map[]), nowMillis) == Forward(
              Donation(AnonymousDonor, AnonymousDonor, Whole(0), nowMillis / 1000,
                       "SocialBuzz", EmptyText, EmptyText),
              ZeroAmount)
  {
  }

  /** A Saweria donation whose message is a number makes `extractUsername`
      throw, so nothing is forwarded and no reply is sent. */
  lemma SaweriaNumericMessageCrashes(game: string, nowMillis: int, delivered: bool)
    ensures var body := Payload(map["type" := Str("donation"), "message" := Num(5.0)]);
            && HandleSaweria(body, nowMillis) == Crashed(MatchIsNotAFunction)
            && Respond(Saweria, game, HandleSaweria(body, nowMillis), delivered) == NoReply
  {
  }

  // ---------------------------------------------------------------------
  // Replies

  /** The `data` object of a successful reply. */
  datatype Summary = Summary(username: Value, amount: Value, source: string)

  /** The HTTP reply: status, `success`, the `message` or `error` text, the
      game's name and, after a delivered donation, the summary. `NoReply` is
      the rejected promise of a handler that threw before replying. */
  datatype Reply =
    | NoReply
    | Reply(status: int, success: bool, text: string, game: string, data: Option<Summary>)

  /** The reply for an outcome, given the game's name and whether the
      forwarding call (`sendToRoblox`, a network request outside this model)
      succeeded. */
  function Respond(p: Platform, game: string, o: Outcome, delivered: bool): (r: Reply)
    ensures r.NoReply? <==> o.Crashed?
    ensures r.Reply? ==> r.game == game && (r.success <==> r.status == 200)
    ensures o == Ignored ==> r.Reply? && r.status == 200
    ensures o == Rejected ==> r.Reply? && r.status == 400
    ensures o.Forward? ==> r.Reply? && (r.status == 200 <==> delivered) && (r.status == 500 <==> !delivered)
    ensures r.Reply? && r.data.Some? ==>
              o.Forward? && delivered &&
              r.data.value == Summary(o.donation.username, o.amountRaw, p.Name())
    ensures o.Forward? && delivered ==>
              r.Reply? && r.data == Some(Summary(o.donation.username, o.amountRaw, p.Name()))
  {
    match o
    case Ignored => Reply(200, true, "OK - Ignored non-donation event", game, None)
    case Rejected => Reply(400, false, "Payload tidak ditemukan", game, None)
    case Crashed(_) => NoReply
    case Forward(d, raw) =>
      if delivered then
        Reply(200, true, p.Name() + " donation processed", game, Some(Summary(d.username, raw, p.Name())))
      else
        Reply(500, false, "Failed to forward to Roblox", game, None)
  }

  /** Only a forwarded donation depends on the network: every other reply is
      decided before anything is sent. */
  lemma RespondIgnoresDeliveryUnlessForwarded(p: Platform, game: string, o: Outcome)
    requires !o.Forward?
    ensures Respond(p, game, o, true) == Respond(p, game, o, false)
  {
  }

  /** A Saweria request without a payload, or whose `type` is not
      `'donation'`, is acknowledged as ignored with success and is never
      forwarded. */
  lemma SaweriaIgnoresNonDonation(game: string, body: Body, nowMillis: int, delivered: bool)
    requires body.NoBody? || Field(body.fields, "type") != Str("donation")
    ensures Respond(Saweria, game, HandleSaweria(body, nowMillis), delivered) ==
              Reply(200, true, "OK - Ignored non-donation event", game, None)
  {
  }

  /** A SocialBuzz request without a payload is refused with status 400 and is
      never forwarded. */
  lemma SocialBuzzRejectsMissingPayload(game: string, nowMillis: int, delivered: bool)
    ensures Respond(SocialBuzz, game, HandleSocialBuzz(NoBody, nowMillis), delivered) ==
              Reply(400, false, "Payload tidak ditemukan", game, None)
  {
  }
}

=== FILE: wrappers.dfy ===
/** Failure-carrying datatypes shared by the other modules. */
module Wrappers {

  /** A value that may be missing. */
  datatype Option<+T> = None | Some(value: T)

  /** Either a computed value or the error that stopped the computation. */
  datatype Result<+T, +E> = Ok(value: T) | Err(error: E)
}
